=== FILE: README.md ===
# Viskell type unifier, modelled in Dafny

This project models the type-checking core of the Viskell visual
functional-programming editor. The core is the Hindley–Milner-style
`TypeChecker.unify(context, a, b)`, together with its helper
`satisfyConstraints`. It also models two small pieces of `Block`: the
loop that turns a type error's context into an input index, and the
dirty flag that caches a block's expression.

The type grammar is closed: `Var`, `Con`, `Fun` and `App` (module
`Types`). The model takes a `ConcreteType` to be a `TypeCon` or a
`TypeApp` (`Types.IsConcreteType`). The mutable,
shared type-variable cells of the Java code become an explicit store
(module `Store`). It maps each variable handle to one cell:

- `Unbound(constraints)`: not yet bound.
- `Link(id)`: merged with another variable.
- `Bound(type)`: bound to its instance.

`unify` is a pure function from a store to an outcome (module
`TypeChecker`). An outcome is `Unified(store)` or `Failed(store, error)`.
The failed store keeps every binding made before the failure, because the
source never rolls back. An error is an `ErrorKind` together with the
context expression:

- `Recursive`
- `ConMismatch`
- `ConstraintViolation`
- `ShapeMismatch`

Each kind holds the types that the Java error message prints.

The store stays acyclic (`WellFormed`: some rank map orders every link
and instance). The occurs-check is what protects this. `Unify` is proved
to terminate by a lexicographic measure:

1. the number of unbound cells;
2. the size of both types with links and instances expanded;
3. whether the left type is a variable.

`Unify` is also proved to preserve acyclicity and never to retract a
binding (`Extends`).

Two behaviours of `unify` are easy to miss; the model keeps both:

- The branch for an unbound variable at TypeChecker.java:56 has no `else`.
  With a function type taken to be no `ConcreteType`, `unify` of an unbound
  variable against a function type that does not contain it succeeds
  without binding anything (`UnboundMeetsFunction`).
- The swap at TypeChecker.java:63 fires only when `a` is a `ConcreteType`.
  Under the same reading, a function type facing a variable is a shape
  mismatch (`FunctionAgainstVariable`), not a swapped call.

Because of the first, "a success makes both sides equal" holds only when no
function type is involved. `UnifySound` is proved for that fragment.

## Model

| member | source | states |
|---|---|---|
| TypeChecker.Unify | Code/src/main/java/nl/utwente/group10/haskell/type/TypeChecker.java:28-93 | terminates on every acyclic store; the resulting store is acyclic and only turns unbound cells into links or bindings (a binding is never retracted); every failure carries the original context; with no function types in the inputs, no binding introduces one |
| TypeChecker.SatisfyConstraints | Code/src/main/java/nl/utwente/group10/haskell/type/TypeChecker.java:103-118 | fails iff some constraint in the set does not admit the type: for a type constructor, a class missing from the table for its name; for a type application, any constraint at all; the failure is a constraint violation naming the type, the set and the context |
| UnifyProperties.UnifyEqualTypes | Code/src/main/java/nl/utwente/group10/haskell/type/TypeChecker.java:32-33 | identical or equal types unify, and every cell is left unchanged |
| UnifyProperties.OccursCheckFirst | Code/src/main/java/nl/utwente/group10/haskell/type/TypeChecker.java:38-41 | a variable facing a different type that reaches its cell fails with a recursive-type error and the given context, whether or not the variable is bound, and the store is untouched |
| UnifyProperties.RecursiveFunctionRejected | Code/src/main/java/nl/utwente/group10/haskell/type/TypeChecker.java:38-41 | `v` against `v -> t` is a recursive-type error for every `v` and `t` |
| UnifyProperties.BoundLeftDelegates | Code/src/main/java/nl/utwente/group10/haskell/type/TypeChecker.java:43-45 | a bound left variable that passes the occurs-check gives the same outcome as unifying its instance |
| UnifyProperties.BoundRightDelegates | Code/src/main/java/nl/utwente/group10/haskell/type/TypeChecker.java:46-51 | an unbound left variable facing a bound right variable that passes the occurs-check gives the same outcome as unifying with the right one's instance |
| UnifyProperties.UnboundVariablesShareCell | Code/src/main/java/nl/utwente/group10/haskell/type/TypeChecker.java:52-54 | two unbound variables in different cells succeed; afterwards both reach the left one's cell, which is still unbound, and the right one sees the left one's constraints; no cell other than the right variable's root changes |
| UnifyProperties.SharedCellsStayShared | Code/src/main/java/nl/utwente/group10/haskell/type/TypeChecker.java:52-54 | two handles that share a cell still share it after any unification, so they agree on whether they are bound and on the instance |
| UnifyProperties.BindingsNeverRetracted | Code/src/main/java/nl/utwente/group10/haskell/type/TypeChecker.java:43-61 | a bound variable stays bound to the same instance through any unification, successful or not |
| UnifyProperties.UnboundMeetsConcrete | Code/src/main/java/nl/utwente/group10/haskell/type/TypeChecker.java:56-61 | an unbound variable against a concrete type that passes the occurs-check is bound to exactly that type when every constraint admits it, and no other cell changes; otherwise the call fails with a constraint violation, the store is unchanged and the variable stays unbound |
| UnifyProperties.UnboundMeetsFunction | Code/src/main/java/nl/utwente/group10/haskell/type/TypeChecker.java:56 | an unbound variable against a function type that does not contain it succeeds, leaves the store unchanged and the variable unbound |
| UnifyProperties.ConstructorsUnifyByName | Code/src/main/java/nl/utwente/group10/haskell/type/TypeChecker.java:67-75 | two type constructors unify iff their names are equal; otherwise the error is a constructor mismatch naming both; no cell changes either way |
| UnifyProperties.ConcreteAgainstVariable | Code/src/main/java/nl/utwente/group10/haskell/type/TypeChecker.java:63-66 | a constructor or application against a variable gives the same outcome as the swapped call |
| UnifyProperties.FunctionAgainstVariable | Code/src/main/java/nl/utwente/group10/haskell/type/TypeChecker.java:88-91 | a function type against a variable is not swapped: it fails with a shape mismatch and the store is unchanged |
| UnifyProperties.DifferentShapesFail | Code/src/main/java/nl/utwente/group10/haskell/type/TypeChecker.java:88-91 | two non-variable types of different shapes fail with a shape mismatch naming both, and the store is unchanged |
| UnifyProperties.PairwiseStopsAtFirstFailure | Code/src/main/java/nl/utwente/group10/haskell/type/TypeChecker.java:76-87 | for two function types or two applications, a failure of the first parts is the outcome, whatever the second parts are |
| UnifyProperties.PairwiseKeepsFirstBindings | Code/src/main/java/nl/utwente/group10/haskell/type/TypeChecker.java:76-87 | when the first parts unify, the outcome is unifying the second parts in the store the first left behind; every binding the first made survives, even if the second part fails |
| UnifyProperties.UnifySound | Code/src/main/java/nl/utwente/group10/haskell/type/TypeChecker.java:28-93 | with no function type in the inputs or the store, a success makes both types resolve to the same type in the resulting store |
| UnifyProperties.ResolveExtends | Code/src/main/java/nl/utwente/group10/haskell/type/TypeChecker.java:76-87 | resolving a type in a later store sees through what an earlier store resolved it to; this is why the second part keeps the first part's equalities |
| UnifyProperties.SameTypeResolve | Code/src/main/java/nl/utwente/group10/haskell/type/TypeChecker.java:32-33 | equal types resolve to the same type |
| Store.Find | Code/src/main/java/nl/utwente/group10/haskell/type/TypeChecker.java:43 | following links from any handle ends at a cell that is not a link, never higher in the rank order |
| Store.ShareCell | Code/src/main/java/nl/utwente/group10/haskell/type/TypeChecker.java:54 | after the merge both handles reach the left variable's cell, which is still unbound and keeps its constraints; the store stays acyclic, and only the right variable's root cell changes |
| Store.SetInstance | Code/src/main/java/nl/utwente/group10/haskell/type/TypeChecker.java:61 | binding a variable to a type that does not reach it keeps the store acyclic, and the variable's instance is then exactly that type; only the variable's root cell changes |
| Store.RebindKeepsWellFormed | Code/src/main/java/nl/utwente/group10/haskell/type/TypeChecker.java:38-41 | overwriting an unbound root with a link or binding that does not lead back to it keeps the store acyclic; this is what the occurs-check guarantees |
| Store.InstanceLighter | Code/src/main/java/nl/utwente/group10/haskell/type/TypeChecker.java:43-45 | replacing a bound variable by its instance strictly shrinks the expanded type, so delegation terminates |
| UnifyExamples.OrdConstraint | Code/src/main/java/nl/utwente/group10/haskell/type/TypeChecker.java:103-110 | with `Ord` admitting `Int` only, an `Ord`-constrained variable rejects `Bool` with a constraint violation and is bound to `Int` by `Int` |
| UnifyExamples.FunctionTypesBindBothSides | Code/src/main/java/nl/utwente/group10/haskell/type/TypeChecker.java:76-81 | `Int -> v` against `w -> Bool` succeeds with `w` bound to `Int` and `v` bound to `Bool` |
| UnifyExamples.ArgumentClashReportedFirst | Code/src/main/java/nl/utwente/group10/haskell/type/TypeChecker.java:76-81 | `Int -> Bool` against `Bool -> Int` reports the argument clash `Int`/`Bool`, not the result clash |
| UnifyExamples.MergedVariablesSeeOneBinding | Code/src/main/java/nl/utwente/group10/haskell/type/TypeChecker.java:52-61 | after `v` and `w` are unified, binding `w` to `Int` is observed through `v` as well |
| UnifyExamples.IntIsNotBool | Code/src/main/java/nl/utwente/group10/haskell/type/TypeChecker.java:71-74 | `Int` against `Bool` is a constructor mismatch carrying the context |
| ErrorLocator.LocateError | Code/src/main/java/nl/utwente/viskell/ui/components/Block.java:228-234 | the returned head is not an application; the context is that head applied to exactly `index + 1` arguments, so the index starts at -1 and counts one per application descended through function positions |
| ErrorLocator.SpineRebuilds | Code/src/main/java/nl/utwente/viskell/ui/components/Block.java:231-233 | applying the spine head to the spine arguments gives back the original expression |
| ErrorLocator.SpineOfApplyAll | Code/src/main/java/nl/utwente/viskell/ui/components/Block.java:231-233 | a non-application applied to arguments splits back into that head and those arguments, so the locator's answer is unique |
| ErrorLocator.LeafContextIndex | Code/src/main/java/nl/utwente/viskell/ui/components/Block.java:228-231 | a context that is not an application gives index -1 and itself |
| ErrorLocator.NestedApplyIndex | Code/src/main/java/nl/utwente/viskell/ui/components/Block.java:228-234 | `Apply(Apply(f, x), y)` gives index 1 and head `f` |
| BlockCache.NewBlock | Code/src/main/java/nl/utwente/viskell/ui/components/Block.java:63-68 | a new block starts dirty, with the connection state it was given |
| BlockCache.SetExprIsDirty | Code/src/main/java/nl/utwente/viskell/ui/components/Block.java:172-174 | the block becomes dirty; its connection state and cached expression are unchanged |
| BlockCache.UpdateConnectionState | Code/src/main/java/nl/utwente/viskell/ui/components/Block.java:74-75 | the block takes the new state and is dirty afterwards iff it was dirty before or the state changed; the cache is untouched |
| BlockCache.GetExpr | Code/src/main/java/nl/utwente/viskell/ui/components/Block.java:139-146 | afterwards the block is clean and the returned expression is the cached one; the update runs iff the block was dirty on entry |
| BlockCache.CleanBlockReturnsCache | Code/src/main/java/nl/utwente/viskell/ui/components/Block.java:141-145 | a clean block returns its cached expression without updating, and stays as it was |
| BlockCache.DirtyBlockRebuilds | Code/src/main/java/nl/utwente/viskell/ui/components/Block.java:141-143 | a dirty block returns exactly what the update built |
| BlockCache.GetExprIdempotent | Code/src/main/java/nl/utwente/viskell/ui/components/Block.java:139-146 | a second read returns the same expression as the first and does not update |
| BlockCache.ConnectionChangeForcesRebuild | Code/src/main/java/nl/utwente/viskell/ui/components/Block.java:74-75 | a changed connection state makes the next read rebuild the expression |
| BlockCache.ReadsNeverEmpty | Code/src/main/java/nl/utwente/viskell/ui/components/Block.java:139-146 | from a new block, after any sequence of state changes, dirty marks and reads, a clean block holds an expression, and a read never returns an absent one |

## Left out

- Logging in `TypeChecker` is left out: it is observability only.
- Error message strings are left out. An error is its kind, the types the message would print, and the context.
- `Type.equals`, `containsOccurenceOf`, `unifyWith`, the variable lookups `hasConcreteInstance`, `getInstantiatedType` and `getConstraints`, `Apply.getChildren`, `ConstraintSet` with its `hasConstraints`, and the constraint table lie outside the unifier and are defined structurally here:
  - `SameType`: variables are equal when they share a cell.
  - `Occurs`: reachability through structure and instances.
  - `ShareCell`: links the right root to the left root.
  - `HasInstance` (`hasConcreteInstance`): the handle's root cell is bound.
  - `Instance` (`getInstantiatedType`): the type that root cell is bound to.
  - `ConstraintsOf` (`getConstraints`): the constraints of an unbound root cell.
  - `Children` (`Apply.getChildren`): the function, then the argument.
  - `HasConstraints` (`hasConstraints`): the set is non-empty.
  - `AllConstraintsMatch` and `Admits`: membership in a table of (class, constructor) pairs, passed as a parameter.
- Store.ShareCell: the merged variable keeps the left variable's constraints and drops the right one's. The body of `unifyWith` is outside this model, so this is an assumption.
- Types.IsConcreteType: the class hierarchy of the type classes is not modelled. The model takes a `ConcreteType` to be a `TypeCon` or a `TypeApp`, and a `FunType` to be neither. `UnboundMeetsFunction`, `FunctionAgainstVariable` and the restriction of `UnifySound` rest on this reading.
- TypeChecker.Unify: requires an acyclic store that has a cell for every variable of both types. The source relies on the same invariant; on a cyclic graph it can recurse without end (in `containsOccurenceOf` or the delegation at TypeChecker.java:45).
- UnifyProperties.UnifySound: proved only when no function type occurs in the inputs or the store. The missing `else` at TypeChecker.java:56 makes the unrestricted statement false (see `UnboundMeetsFunction`).
- UnifyExamples.MergedVariablesSeeOneBinding: binds a type without variables. The general aliasing fact is `SharedCellsStayShared`.
- `Expression.findType()` and the expression classes are left out: the context is opaque to the unifier. Every non-application node is one `Leaf` variant.
- ErrorLocator.LocateError: the Java `int` index is unbounded here. An application spine deeper than 2^31 cannot be built.
- The UI side effects after locating an error are left out: `getExprToFunction(...).getInput(index).setErrorState(true)` and `setErrorOccurred`.
- `updateExpr` is abstract in `Block`, so it is a parameter: the expression it would build.
- BlockCache.UpdateConnectionState: assumes the property notifies its listeners only when the value changes. The other listeners (`invalidateConnectionState`, `cascadeConnectionState`) are left out.
- Everything JavaFX in `Block` is left out: mouse handling, `CircleMenu`, selection styling, listener wiring, the connection and visual-state cascades across anchors, `informUnkownHaskellException` and `toBundle`.
- `ValueBlock` (both packages) and `OutputAnchor` are left out. They are FXML loading, property wrappers and connection-creation UI with no logic to verify.

=== FILE: block.dfy ===
/**
 The two pieces of a visual block that the type checker's results pass
 through: the locator that turns the context of a type error into an
 input index, and the dirty flag that caches the block's expression.
 */
module ErrorLocator {
  import opened Expressions
  import opened TypeChecker

  /** The node reached by descending function positions until a non-application. */
  function SpineHead(e: Expr): (h: Expr)
    ensures !h.Apply?
  {
    if e.Apply? then SpineHead(e.fn) else e
  }

  /** The arguments along the application spine, the innermost one first. */
  function SpineArgs(e: Expr): seq<Expr> {
    if e.Apply? then SpineArgs(e.fn) + [e.arg] else []
  }

  /** `head` applied to `args`, the first argument innermost. */
  function ApplyAll(head: Expr, args: seq<Expr>): Expr
    decreases |args|
  {
    if args == [] then head else Apply(ApplyAll(head, args[..|args| - 1]), args[|args| - 1])
  }

  /** Splitting an expression into its spine and applying the head again gives it back. */
  lemma {:induction false} SpineRebuilds(e: Expr)
    ensures ApplyAll(SpineHead(e), SpineArgs(e)) == e
  {
    if e.Apply? {
      SpineRebuilds(e.fn);
      var args := SpineArgs(e);
      assert args[..|args| - 1] == SpineArgs(e.fn);
    }
  }

  /** Applying a non-application to arguments and splitting the spine recovers both. */
  lemma {:induction false} SpineOfApplyAll(head: Expr, args: seq<Expr>)
    requires !head.Apply?
    ensures SpineHead(ApplyAll(head, args)) == head
    ensures SpineArgs(ApplyAll(head, args)) == args
    decreases |args|
  {
    if args != [] {
      SpineOfApplyAll(head, args[..|args| - 1]);
      assert args[..|args| - 1] + [args[|args| - 1]] == args;
    }
  }

  /** The error index of `cascadeConnectionState`: starting at -1, step into
      child 0 of each application and count the steps. The context is the
      returned head applied to exactly `index + 1` arguments. */
  method LocateError(error: TypeError) returns (index: int, errorExpr: Expr)
    ensures !errorExpr.Apply? && index >= -1
    ensures exists args :: |args| == index + 1 && ApplyAll(errorExpr, args) == error.context
    ensures index == |SpineArgs(error.context)| - 1 && errorExpr == SpineHead(error.context)
  {
    index := -1;
    errorExpr := error.context;
    while errorExpr.Apply?
      invariant index >= -1
      invariant SpineHead(errorExpr) == SpineHead(error.context)
      invariant |SpineArgs(errorExpr)| + index + 1 == |SpineArgs(error.context)|
      decreases errorExpr
    {
      errorExpr := Children(errorExpr)[0];
      index := index + 1;
    }
    SpineRebuilds(error.context);
  }

  /** A context that is not an application yields index -1 and itself. */
  lemma LeafContextIndex(e: Expr)
    requires !e.Apply?
    ensures |SpineArgs(e)| - 1 == -1 && SpineHead(e) == e
  {
  }

  /** Two applications deep: index 1, and the head is the applied function. */
  lemma NestedApplyIndex(f: Expr, x: Expr, y: Expr)
    requires !f.Apply?
    ensures |SpineArgs(Apply(Apply(f, x), y))| - 1 == 1
    ensures SpineHead(Apply(Apply(f, x), y)) == f
  {
    SpineOfApplyAll(f, [x, y]);
    assert [x, y][..1] == [x] && [x][..0] == [];
    assert ApplyAll(f, [x]) == Apply(f, x);
    assert ApplyAll(f, [x, y]) == Apply(Apply(f, x), y);
  }
}

module BlockCache {
  import opened Expressions

  datatype Option<T> = None | Some(value: T)

  /** The state of a block that matters to its expression: its connection
      state, whether the cached expression is stale, and the cache itself
      (absent until the first update). */
  datatype Block = Block(connectionState: int, exprIsDirty: bool, expr: Option<Expr>)

  /** What `getExpr` returns, the block after the call, and whether it ran `updateExpr`. */
  datatype Fetch = Fetch(block: Block, expr: Option<Expr>, updated: bool)

  /** A new block: a fresh connection state, and a stale, empty cache. */
  function NewBlock(state: int): (b: Block)
    ensures b.exprIsDirty && b.connectionState == state
  {
    Block(state, true, None)
  }

  /** `setExprIsDirty`: mark the cache stale; nothing else changes. */
  function SetExprIsDirty(b: Block): (b': Block)
    ensures b'.exprIsDirty
    ensures b'.connectionState == b.connectionState && b'.expr == b.expr
  {
    b.(exprIsDirty := true)
  }

  /** `updateConnectionState(state)`: a changed connection state notifies the
      listeners, one of which marks the cache stale; setting the same state
      notifies no one. */
  function UpdateConnectionState(b: Block, state: int): (b': Block)
    ensures b'.connectionState == state && b'.expr == b.expr
    ensures b'.exprIsDirty <==> b.exprIsDirty || state != b.connectionState
  {
    if state == b.connectionState then b else SetExprIsDirty(b.(connectionState := state))
  }

  /** `getExpr`: a stale cache is refreshed with what `updateExpr` builds
      (`rebuilt`), then the cached expression is returned. */
  function GetExpr(b: Block, rebuilt: Expr): (f: Fetch)
    ensures !f.block.exprIsDirty && f.expr == f.block.expr
    ensures f.updated <==> b.exprIsDirty
    ensures f.block.connectionState == b.connectionState
  {
    if b.exprIsDirty then
      var b' := b.(expr := Some(rebuilt), exprIsDirty := false);
      Fetch(b', b'.expr, true)
    else
      Fetch(b, b.expr, false)
  }

  /** A clean block returns its cached expression and stays as it is. */
  lemma CleanBlockReturnsCache(b: Block, rebuilt: Expr)
    requires !b.exprIsDirty
    ensures GetExpr(b, rebuilt) == Fetch(b, b.expr, false)
  {
  }

  /** A stale block returns exactly what the update built. */
  lemma DirtyBlockRebuilds(b: Block, rebuilt: Expr)
    requires b.exprIsDirty
    ensures GetExpr(b, rebuilt).expr == Some(rebuilt)
  {
  }

  /** Asking twice runs the update at most once, and both calls agree. */
  lemma GetExprIdempotent(b: Block, first: Expr, second: Expr)
    ensures var f1 := GetExpr(b, first);
      var f2 := GetExpr(f1.block, second);
      f2.expr == f1.expr && f2.block == f1.block && !f2.updated
  {
  }

  /** A connection change between two reads forces the second read to rebuild. */
  lemma ConnectionChangeForcesRebuild(b: Block, state: int, rebuilt: Expr)
    requires state != b.connectionState
    ensures var f := GetExpr(UpdateConnectionState(b, state), rebuilt);
      f.updated && f.expr == Some(rebuilt)
  {
  }

  /** Everything that can happen to a block's expression cache. */
  datatype Event =
    | ConnectionStateSet(state: int)
    | MarkedDirty
    | Read(rebuilt: Expr)

  function Step(b: Block, e: Event): Block {
    match e
    case ConnectionStateSet(state) => UpdateConnectionState(b, state)
    case MarkedDirty => SetExprIsDirty(b)
    case Read(rebuilt) => GetExpr(b, rebuilt).block
  }

  function Run(b: Block, events: seq<Event>): Block
    decreases |events|
  {
    if events == [] then b else Run(Step(b, events[0]), events[1..])
  }

  /** A clean cache always holds an expression. */
  ghost predicate Consistent(b: Block) {
    !b.exprIsDirty ==> b.expr.Some?
  }

  /** From a new block, every sequence of events keeps the cache consistent,
      so `getExpr` never returns an absent expression. */
  lemma {:induction false} ReadsNeverEmpty(state: int, events: seq<Event>, rebuilt: Expr)
    ensures Consistent(Run(NewBlock(state), events))
    ensures GetExpr(Run(NewBlock(state), events), rebuilt).expr.Some?
  {
    RunKeepsConsistent(NewBlock(state), events);
  }

  lemma {:induction false} RunKeepsConsistent(b: Block, events: seq<Event>)
    requires Consistent(b)
    ensures Consistent(Run(b, events))
    decreases |events|
  {
    if events != [] {
      RunKeepsConsistent(Step(b, events[0]), events[1..]);
    }
  }
}

=== FILE: constraints.dfy ===
/**
 Constraint sets: type-class-like tags attached to a type variable.
 Which type constructor satisfies which class is a static table that is
 configuration outside the type checker, so it is a parameter here.
 */
module Constraints {
  import opened Types

  type ClassName = string

  type ConstraintSet = set<ClassName>

  /** The admitted (class, type-constructor name) pairs. */
  type InstanceTable = set<(ClassName, string)>

  /** The set carries at least one constraint. */
  predicate HasConstraints(cs: ConstraintSet) {
    cs != {}
  }

  /** Every constraint of the set admits the type constructor named `con`. */
  predicate AllConstraintsMatch(table: InstanceTable, cs: ConstraintSet, con: string) {
    forall c :: c in cs ==> (c, con) in table
  }

  /** Every constraint in `cs` admits the concrete type `t`: a type constructor
      must be listed under each class, and a type application is listed under none. */
  predicate Admits(table: InstanceTable, cs: ConstraintSet, t: Type) {
    forall c :: c in cs ==> t.Con? && (c, t.name) in table
  }
}

=== FILE: expressions.dfy ===
/**
 The expression tree the editor builds from the visual graph. The type
 checker only carries it around as the context of an error; the error
 locator walks its application spine.
 */
module Expressions {

  /** An application of a function to one argument, or any other node. */
  datatype Expr =
    | Apply(fn: Expr, arg: Expr)
    | Leaf(name: string)

  /** `getChildren`: an application's children are its function, then its argument. */
  function Children(e: Expr): seq<Expr> {
    match e
    case Apply(f, x) => [f, x]
    case Leaf(_) => []
  }
}

=== FILE: store.dfy ===
/**
 The mutable, shared type-variable cells of the unifier, made explicit.
 A store maps each variable handle to its cell: still unbound (carrying
 its constraint set), linked to the cell of another handle (the two
 variables were merged), or bound to a type (its instance).
 Following links from a handle ends at its root cell, which is what the
 handle observes.
 */
module Store {
  import opened Types
  import opened Constraints

  datatype Cell =
    | Unbound(constraints: ConstraintSet)
    | Link(target: VarId)
    | Bound(instance: Type)

  type Store = map<VarId, Cell>

  /** Every type variable of `t` has a cell in `s`. */
  predicate InStore(s: Store, t: Type) {
    Vars(t) <= s.Keys
  }

  /** Everything cell `c` points to ranks strictly below `n`. */
  ghost predicate Below(c: Cell, rk: map<VarId, nat>, n: nat) {
    match c
    case Unbound(_) => true
    case Link(y) => y in rk && rk[y] < n
    case Bound(t) => forall v :: v in Vars(t) ==> v in rk && rk[v] < n
  }

  /** `rk` witnesses that following links and instances from any cell never cycles. */
  ghost predicate Ranked(s: Store, rk: map<VarId, nat>) {
    s.Keys == rk.Keys && forall x :: x in s ==> Below(s[x], rk, rk[x])
  }

  /** The store is closed and acyclic: the invariant the occurs-check protects. */
  ghost predicate WellFormed(s: Store) {
    exists rk :: Ranked(s, rk)
  }

  ghost function RankOf(s: Store): (rk: map<VarId, nat>)
    requires WellFormed(s)
    ensures Ranked(s, rk)
  {
    var rk :| Ranked(s, rk); rk
  }

  /** The root cell a handle observes: follow links until a non-link cell. */
  function Find(s: Store, x: VarId): (r: VarId)
    requires WellFormed(s) && x in s
    ensures r in s && !s[r].Link?
    ensures RankOf(s)[r] <= RankOf(s)[x]
    decreases RankOf(s)[x]
  {
    match s[x]
    case Link(y) => Find(s, y)
    case _ => x
  }

  /** `hasConcreteInstance`: the handle's root cell is bound. */
  predicate HasInstance(s: Store, x: VarId)
    requires WellFormed(s) && x in s
  {
    s[Find(s, x)].Bound?
  }

  /** `getInstantiatedType`: the type the handle's root cell is bound to. */
  function Instance(s: Store, x: VarId): (t: Type)
    requires WellFormed(s) && x in s && HasInstance(s, x)
    ensures InStore(s, t)
    ensures Height(RankOf(s), t) <= RankOf(s)[x]
  {
    var r := Find(s, x);
    HeightAtMost(RankOf(s), s[r].instance, RankOf(s)[r]);
    s[r].instance
  }

  /** `getConstraints` of an unbound handle: the constraints of its root cell. */
  function ConstraintsOf(s: Store, x: VarId): ConstraintSet
    requires WellFormed(s) && x in s && !HasInstance(s, x)
  {
    s[Find(s, x)].constraints
  }

  /** Size of `t` with every link and instance expanded; it ranks recursive calls of the unifier. */
  ghost function Weight(s: Store, t: Type): nat
    requires WellFormed(s) && InStore(s, t)
    decreases Height(RankOf(s), t), t
  {
    match t
    case Var(x) =>
      (match s[x]
       case Unbound(_) => 1
       case Link(y) => 1 + Weight(s, Var(y))
       case Bound(u) =>
         HeightAtMost(RankOf(s), u, RankOf(s)[x]);
         1 + Weight(s, u))
    case Con(_) => 1
    case Fun(a, r) => 1 + Weight(s, a) + Weight(s, r)
    case App(f, a) => 1 + Weight(s, f) + Weight(s, a)
  }

  /** Replacing a bound variable by its instance makes the expanded type strictly smaller. */
  lemma {:induction false} InstanceLighter(s: Store, x: VarId)
    requires WellFormed(s) && x in s && HasInstance(s, x)
    ensures Weight(s, Instance(s, x)) < Weight(s, Var(x))
    decreases RankOf(s)[x]
  {
    if s[x].Link? {
      InstanceLighter(s, s[x].target);
    }
  }

  /** `containsOccurenceOf`: the root cell of `x` is reachable from `t` through
      structural children and the instances of bound variables. */
  predicate Occurs(s: Store, x: VarId, t: Type)
    requires WellFormed(s) && x in s && InStore(s, t)
    decreases Height(RankOf(s), t), t
  {
    match t
    case Var(y) => Find(s, y) == Find(s, x) || (HasInstance(s, y) && Occurs(s, x, Instance(s, y)))
    case Con(_) => false
    case Fun(a, r) => Occurs(s, x, a) || Occurs(s, x, r)
    case App(f, a) => Occurs(s, x, f) || Occurs(s, x, a)
  }

  /** A variable reaching `x` inside `t` makes `t` reach `x`. */
  lemma {:induction false} OccursThroughVar(s: Store, x: VarId, t: Type, v: VarId)
    requires WellFormed(s) && x in s && InStore(s, t) && v in Vars(t)
    requires Occurs(s, x, Var(v))
    ensures Occurs(s, x, t)
  {
    match t
    case Var(_) =>
    case Con(_) =>
    case Fun(a, r) =>
      if v in Vars(a) { OccursThroughVar(s, x, a, v); } else { OccursThroughVar(s, x, r, v); }
    case App(f, a) =>
      if v in Vars(f) { OccursThroughVar(s, x, f, v); } else { OccursThroughVar(s, x, a, v); }
  }

  /** `Type.equals`: variables are equal when they share a root cell, constructors
      when their names are equal, compound types part by part. */
  predicate SameType(s: Store, a: Type, b: Type)
    requires WellFormed(s) && InStore(s, a) && InStore(s, b)
  {
    match (a, b)
    case (Var(x), Var(y)) => Find(s, x) == Find(s, y)
    case (Con(m), Con(n)) => m == n
    case (Fun(a1, r1), Fun(a2, r2)) => SameType(s, a1, a2) && SameType(s, r1, r2)
    case (App(f1, x1), App(f2, x2)) => SameType(s, f1, f2) && SameType(s, x1, x2)
    case _ => false
  }

  /** The type a handle-bearing type stands for once every bound variable is
      replaced by its instance and every unbound one by its root. */
  ghost function Resolve(s: Store, t: Type): (r: Type)
    requires WellFormed(s) && InStore(s, t)
    ensures InStore(s, r)
    ensures forall v :: v in Vars(r) ==> s[v].Unbound?
    decreases Height(RankOf(s), t), t
  {
    match t
    case Var(y) => if HasInstance(s, y) then Resolve(s, Instance(s, y)) else Var(Find(s, y))
    case Con(n) => Con(n)
    case Fun(a, r) => Fun(Resolve(s, a), Resolve(s, r))
    case App(f, a) => App(Resolve(s, f), Resolve(s, a))
  }

  /** No cell is bound to a type that mentions a function type. */
  ghost predicate InstancesFunFree(s: Store) {
    forall x :: x in s && s[x].Bound? ==> FunFree(s[x].instance)
  }

  /** The cells that are still unbound. */
  ghost function UnboundIds(s: Store): set<VarId> {
    set x | x in s && s[x].Unbound?
  }

  /** `s'` arises from `s` only by turning unbound cells into links or bindings:
      a binding, once made, is never retracted. */
  ghost predicate Extends(s: Store, s': Store) {
    && s'.Keys == s.Keys
    && forall x :: x in s ==> s'[x] == s[x] || (s[x].Unbound? && !s'[x].Unbound?)
  }

  lemma ExtendsTransitive(s1: Store, s2: Store, s3: Store)
    requires Extends(s1, s2) && Extends(s2, s3)
    ensures Extends(s1, s3)
  {
  }

  lemma {:induction false} SubsetCard<T>(a: set<T>, b: set<T>)
    requires a <= b
    ensures |a| <= |b|
    decreases a
  {
    if a != {} {
      var e :| e in a;
      SubsetCard(a - {e}, b - {e});
    }
  }

  /** Any change to the store uses up an unbound cell. */
  lemma ExtendsShrinks(s: Store, s': Store)
    requires Extends(s, s')
    ensures UnboundIds(s') <= UnboundIds(s)
    ensures s' == s || |UnboundIds(s')| < |UnboundIds(s)|
  {
    if s' != s {
      assert exists x :: x in s && s'[x] != s[x];
      var x :| x in s && s'[x] != s[x];
      SubsetCard(UnboundIds(s'), UnboundIds(s) - {x});
    }
  }

  /** Under an extension every handle reaches the new root of its old root. */
  lemma {:induction false} ExtendsFind(s: Store, s': Store, x: VarId)
    requires WellFormed(s) && WellFormed(s') && Extends(s, s') && x in s
    ensures Find(s', x) == Find(s', Find(s, x))
    decreases RankOf(s)[x]
  {
    if s[x].Link? {
      ExtendsFind(s, s', s[x].target);
    }
  }

  /** A rank map for the store after the unbound root of `x` is overwritten:
      every cell that reaches that root is lifted above `k`. */
  ghost function Lifted(s: Store, x: VarId, k: nat): (rk': map<VarId, nat>)
    requires WellFormed(s) && x in s
    ensures rk'.Keys == s.Keys
    ensures forall v :: v in rk' ==> rk'[v] == LiftedRank(s, x, k, v)
  {
    map v | v in s :: LiftedRank(s, x, k, v)
  }

  ghost function LiftedRank(s: Store, x: VarId, k: nat, v: VarId): nat
    requires WellFormed(s) && x in s && v in s
  {
    RankOf(s)[v] + (if Occurs(s, x, Var(v)) then k + 1 else 0)
  }

  lemma LinkStaysBelow(s: Store, x: VarId, k: nat, z: VarId)
    requires WellFormed(s) && x in s && z in s && s[z].Link?
    ensures Below(s[z], Lifted(s, x, k), Lifted(s, x, k)[z])
  {
    var y := s[z].target;
    assert Find(s, z) == Find(s, y);
    assert Occurs(s, x, Var(z)) == Occurs(s, x, Var(y));
  }

  lemma BoundStaysBelow(s: Store, x: VarId, k: nat, z: VarId)
    requires WellFormed(s) && x in s && z in s && s[z].Bound?
    ensures Below(s[z], Lifted(s, x, k), Lifted(s, x, k)[z])
  {
    var rk := RankOf(s);
    var rk' := Lifted(s, x, k);
    var t := s[z].instance;
    assert Below(s[z], rk, rk[z]);
    assert Find(s, z) == z;
    forall v | v in Vars(t)
      ensures v in rk' && rk'[v] < rk'[z]
    {
      if Occurs(s, x, Var(v)) {
        OccursThroughVar(s, x, t, v);
        assert Occurs(s, x, Var(z));
      }
    }
  }

  lemma NewCellBelow(s: Store, x: VarId, c: Cell, k: nat)
    requires WellFormed(s) && x in s && s[Find(s, x)].Unbound?
    requires c.Link? ==> c.target in s && !Occurs(s, x, Var(c.target)) && k == RankOf(s)[c.target] + 1
    requires c.Bound? ==> InStore(s, c.instance) && !Occurs(s, x, c.instance) && k == Height(RankOf(s), c.instance)
    ensures Below(c, Lifted(s, x, k), Lifted(s, x, k)[Find(s, x)])
  {
    RootLifted(s, x, k);
    if c.Bound? {
      NewBoundBelow(s, x, c.instance, k);
    } else if c.Link? {
      NewLinkBelow(s, x, c.target, k);
    }
  }

  /** The overwritten root itself is lifted above `k`. */
  lemma RootLifted(s: Store, x: VarId, k: nat)
    requires WellFormed(s) && x in s
    ensures Lifted(s, x, k)[Find(s, x)] == RankOf(s)[Find(s, x)] + k + 1
  {
    assert Occurs(s, x, Var(Find(s, x)));
  }

  lemma NewLinkBelow(s: Store, x: VarId, y: VarId, k: nat)
    requires WellFormed(s) && x in s && y in s
    requires !Occurs(s, x, Var(y)) && k == RankOf(s)[y] + 1
    requires Lifted(s, x, k)[Find(s, x)] > k
    ensures Below(Link(y), Lifted(s, x, k), Lifted(s, x, k)[Find(s, x)])
  {
  }

  lemma NewBoundBelow(s: Store, x: VarId, t: Type, k: nat)
    requires WellFormed(s) && x in s && s[Find(s, x)].Unbound?
    requires InStore(s, t) && !Occurs(s, x, t) && k == Height(RankOf(s), t)
    requires Lifted(s, x, k)[Find(s, x)] > k
    ensures Below(Bound(t), Lifted(s, x, k), Lifted(s, x, k)[Find(s, x)])
  {
    var rk' := Lifted(s, x, k);
    forall v | v in Vars(t)
      ensures v in rk' && rk'[v] < rk'[Find(s, x)]
    {
      if Occurs(s, x, Var(v)) {
        OccursThroughVar(s, x, t, v);
      }
      HeightAbove(RankOf(s), t, v);
    }
  }

  /** Overwriting the unbound root of `x` with a cell that does not lead back
      to it keeps the store acyclic. */
  lemma RebindKeepsWellFormed(s: Store, x: VarId, c: Cell)
    requires WellFormed(s) && x in s && s[Find(s, x)].Unbound?
    requires c.Link? ==> c.target in s && !Occurs(s, x, Var(c.target))
    requires c.Bound? ==> InStore(s, c.instance) && !Occurs(s, x, c.instance)
    ensures WellFormed(s[Find(s, x) := c])
  {
    var k: nat := match c
      case Unbound(_) => 0
      case Link(y) => RankOf(s)[y] + 1
      case Bound(t) => Height(RankOf(s), t);
    var rk' := Lifted(s, x, k);
    var s' := s[Find(s, x) := c];
    KeysAfterUpdate(s, Find(s, x), c);
    forall z | z in s'
      ensures Below(s'[z], rk', rk'[z])
    {
      RebindCellBelow(s, x, c, k, z);
    }
    assert Ranked(s', rk');
  }

  lemma KeysAfterUpdate(s: Store, r: VarId, c: Cell)
    requires r in s
    ensures s[r := c].Keys == s.Keys
  {
  }

  lemma RebindCellBelow(s: Store, x: VarId, c: Cell, k: nat, z: VarId)
    requires WellFormed(s) && x in s && s[Find(s, x)].Unbound? && z in s
    requires c.Link? ==> c.target in s && !Occurs(s, x, Var(c.target)) && k == RankOf(s)[c.target] + 1
    requires c.Bound? ==> InStore(s, c.instance) && !Occurs(s, x, c.instance) && k == Height(RankOf(s), c.instance)
    ensures Below(s[Find(s, x) := c][z], Lifted(s, x, k), Lifted(s, x, k)[z])
  {
    if z == Find(s, x) {
      NewCellBelow(s, x, c, k);
    } else if s[z].Link? {
      LinkStaysBelow(s, x, k, z);
    } else if s[z].Bound? {
      BoundStaysBelow(s, x, k, z);
    }
  }

  /** `vb.unifyWith(va)`: the cell of `y` is made to share the cell of `x`,
      so both handles observe one future binding. */
  function ShareCell(s: Store, y: VarId, x: VarId): (s': Store)
    requires WellFormed(s) && x in s && y in s
    requires !HasInstance(s, x) && !HasInstance(s, y) && Find(s, x) != Find(s, y)
    ensures WellFormed(s') && Extends(s, s')
    ensures Find(s', x) == Find(s, x) && Find(s', y) == Find(s, x)
    ensures !HasInstance(s', x) && !HasInstance(s', y)
    ensures ConstraintsOf(s', y) == ConstraintsOf(s', x) == ConstraintsOf(s, x)
    ensures forall v :: v in s && v != Find(s, y) ==> v in s' && s'[v] == s[v]
  {
    RebindKeepsWellFormed(s, y, Link(Find(s, x)));
    var s' := s[Find(s, y) := Link(Find(s, x))];
    ExtendsFind(s, s', x);
    ExtendsFind(s, s', y);
    s'
  }

  /** `setConcreteInstance`: the unbound root cell of `x` is bound to `t`. */
  function SetInstance(s: Store, x: VarId, t: Type): (s': Store)
    requires WellFormed(s) && x in s && InStore(s, t)
    requires !HasInstance(s, x) && !Occurs(s, x, t)
    ensures WellFormed(s') && Extends(s, s')
    ensures HasInstance(s', x) && Instance(s', x) == t
    ensures forall v :: v in s && v != Find(s, x) ==> v in s' && s'[v] == s[v]
  {
    RebindKeepsWellFormed(s, x, Bound(t));
    var s' := s[Find(s, x) := Bound(t)];
    ExtendsFind(s, s', x);
    s'
  }
}

=== FILE: type_checker.dfy ===
/**
 The unifier: walks two type expressions together and records, in the
 store, what makes them equal. Every failure carries the context
 expression it was given, and nothing is rolled back on failure: the
 store of a failed outcome keeps every binding made before the failure.
 */
module TypeChecker {
  import opened Types
  import opened Constraints
  import opened Store
  import opened Expressions

  /** What went wrong, with the types the error message names. */
  datatype ErrorKind =
    | Recursive(variable: Type, within: Type)
    | ConMismatch(left: Type, right: Type)
    | ConstraintViolation(offered: Type, constraints: ConstraintSet)
    | ShapeMismatch(left: Type, right: Type)

  /** `HaskellTypeError`: an error kind and the expression it is reported against. */
  datatype TypeError = TypeError(kind: ErrorKind, context: Expr)

  datatype Check = Pass | Fail(error: TypeError)

  /** The store after a unification, and the error when it failed. */
  datatype Outcome =
    | Unified(store: Store)
    | Failed(store: Store, error: TypeError)

  /** `satisfyConstraints`: a type constructor must be admitted by every
      constraint; any other concrete type only by an empty constraint set. */
  function SatisfyConstraints(table: InstanceTable, t: Type, cs: ConstraintSet, context: Expr): (r: Check)
    requires IsConcreteType(t)
    ensures r.Fail? <==> !Admits(table, cs, t)
    ensures r.Fail? ==> r.error == TypeError(ConstraintViolation(t, cs), context)
  {
    if t.Con? then
      if !AllConstraintsMatch(table, cs, t.name) then
        Fail(TypeError(ConstraintViolation(t, cs), context))
      else
        Pass
    else if HasConstraints(cs) then
      Fail(TypeError(ConstraintViolation(t, cs), context))
    else
      Pass
  }

  /** `unify(context, a, b)`. */
  function Unify(table: InstanceTable, s: Store, context: Expr, a: Type, b: Type): (r: Outcome)
    requires WellFormed(s) && InStore(s, a) && InStore(s, b)
    ensures WellFormed(r.store) && Extends(s, r.store)
    ensures r.Failed? ==> r.error.context == context
    ensures InstancesFunFree(s) && FunFree(a) && FunFree(b) ==> InstancesFunFree(r.store)
    decreases |UnboundIds(s)|, Weight(s, a) + Weight(s, b), if a.Var? then 0 else 1
  {
    if SameType(s, a, b) then
      Unified(s)
    else if a.Var? then
      var x := a.id;
      if Occurs(s, x, b) then
        Failed(s, TypeError(Recursive(a, b), context))
      else if HasInstance(s, x) then
        InstanceLighter(s, x);
        Unify(table, s, context, Instance(s, x), b)
      else if b.Var? then
        if HasInstance(s, b.id) then
          InstanceLighter(s, b.id);
          Unify(table, s, context, a, Instance(s, b.id))
        else
          Unified(ShareCell(s, b.id, x))
      else if IsConcreteType(b) then
        match SatisfyConstraints(table, b, ConstraintsOf(s, x), context)
        case Fail(e) => Failed(s, e)
        case Pass => Unified(SetInstance(s, x, b))
      else
        // an unbound variable facing a function type: no branch applies
        Unified(s)
    else if b.Var? && IsConcreteType(a) then
      Unify(table, s, context, b, a)
    else if a.Con? && b.Con? then
      if a.name != b.name then
        Failed(s, TypeError(ConMismatch(a, b), context))
      else
        Unified(s)
    else if a.Fun? && b.Fun? then
      var first := Unify(table, s, context, a.arg, b.arg);
      if first.Failed? then
        first
      else
        ExtendsShrinks(s, first.store);
        var second := Unify(table, first.store, context, a.res, b.res);
        ExtendsTransitive(s, first.store, second.store);
        second
    else if a.App? && b.App? then
      var first := Unify(table, s, context, a.tfun, b.tfun);
      if first.Failed? then
        first
      else
        ExtendsShrinks(s, first.store);
        var second := Unify(table, first.store, context, a.targ, b.targ);
        ExtendsTransitive(s, first.store, second.store);
        second
    else
      Failed(s, TypeError(ShapeMismatch(a, b), context))
  }
}

=== FILE: types.dfy ===
/**
 The closed grammar of type expressions the unifier walks: type variables,
 nullary type constructors, function types and type applications.
 A type variable is only a handle; the cell it names lives in a store
 (see module Store), which is what lets several handles share one cell.
 */
module Types {

  /** The identity of a type-variable handle. */
  type VarId = nat

  datatype Type =
    | Var(id: VarId)
    | Con(name: string)
    | Fun(arg: Type, res: Type)
    | App(tfun: Type, targ: Type)

  /** The reading of `ConcreteType` this model takes: a TypeCon or a TypeApp, never a FunType. */
  predicate IsConcreteType(t: Type) {
    t.Con? || t.App?
  }

  /** The variable handles mentioned syntactically in a type. */
  function Vars(t: Type): set<VarId> {
    match t
    case Var(x) => {x}
    case Con(_) => {}
    case Fun(a, r) => Vars(a) + Vars(r)
    case App(f, a) => Vars(f) + Vars(a)
  }

  /** The first part of a function type or type application: argument or type function. */
  function Left(t: Type): Type
    requires t.Fun? || t.App?
  {
    if t.Fun? then t.arg else t.tfun
  }

  /** The second part of a function type or type application: result or type argument. */
  function Right(t: Type): Type
    requires t.Fun? || t.App?
  {
    if t.Fun? then t.res else t.targ
  }

  /** True iff no function type occurs anywhere in `t`. */
  predicate FunFree(t: Type) {
    match t
    case Var(_) => true
    case Con(_) => true
    case Fun(_, _) => false
    case App(f, a) => FunFree(f) && FunFree(a)
  }

  function Max(a: nat, b: nat): nat {
    if a < b then b else a
  }

  /** One more than the largest rank of a variable of `t` (0 without variables). */
  ghost function Height(rk: map<VarId, nat>, t: Type): nat
    requires Vars(t) <= rk.Keys
  {
    match t
    case Var(x) => rk[x] + 1
    case Con(_) => 0
    case Fun(a, r) => Max(Height(rk, a), Height(rk, r))
    case App(f, a) => Max(Height(rk, f), Height(rk, a))
  }

  /** A type whose variables all rank below `n` has height at most `n`. */
  lemma {:induction false} HeightAtMost(rk: map<VarId, nat>, t: Type, n: nat)
    requires forall v :: v in Vars(t) ==> v in rk && rk[v] < n
    ensures Vars(t) <= rk.Keys && Height(rk, t) <= n
  {
    match t
    case Var(_) =>
    case Con(_) =>
    case Fun(a, r) =>
      HeightAtMost(rk, a, n);
      HeightAtMost(rk, r, n);
    case App(f, a) =>
      HeightAtMost(rk, f, n);
      HeightAtMost(rk, a, n);
  }

  /** Every variable of `t` ranks below the height of `t`. */
  lemma {:induction false} HeightAbove(rk: map<VarId, nat>, t: Type, v: VarId)
    requires Vars(t) <= rk.Keys && v in Vars(t)
    ensures rk[v] < Height(rk, t)
  {
    match t
    case Var(_) =>
    case Con(_) =>
    case Fun(a, r) =>
      if v in Vars(a) { HeightAbove(rk, a, v); } else { HeightAbove(rk, r, v); }
    case App(f, a) =>
      if v in Vars(f) { HeightAbove(rk, f, v); } else { HeightAbove(rk, a, v); }
  }
}

=== FILE: unify_examples.dfy ===
/**
 Small concrete scenarios of the unifier, each derived from the general
 lemmas: constructor mismatch, constraint rejection and acceptance,
 function types binding both sides, argument-first error reporting, and
 a merge followed by a binding seen through both variables.
 */
module UnifyExamples {
  import opened Types
  import opened Constraints
  import opened Store
  import opened Expressions
  import opened TypeChecker
  import opened UnifyProperties

  const Int := Con("Int")
  const Bool := Con("Bool")

  /** Two fresh variables 0 and 1, the first constrained by `cs`. */
  function TwoFresh(cs: ConstraintSet): (s: Store)
    ensures WellFormed(s) && 0 in s && 1 in s
    ensures !HasInstance(s, 0) && !HasInstance(s, 1) && Find(s, 0) != Find(s, 1)
    ensures ConstraintsOf(s, 0) == cs && ConstraintsOf(s, 1) == {}
  {
    var s := map[0 := Unbound(cs), 1 := Unbound({})];
    assert Ranked(s, map[0 := 0, 1 := 0]);
    s
  }

  lemma IntIsNotBool(table: InstanceTable, context: Expr)
    ensures Unify(table, TwoFresh({}), context, Int, Bool)
         == Failed(TwoFresh({}), TypeError(ConMismatch(Int, Bool), context))
  {
    ConstructorsUnifyByName(table, TwoFresh({}), context, "Int", "Bool");
  }

  /** With `Ord` admitting `Int` but not `Bool`, an `Ord`-constrained variable
      rejects `Bool` and is bound by `Int`. */
  lemma OrdConstraint(context: Expr)
    ensures var s := TwoFresh({"Ord"});
      var table := {("Ord", "Int")};
      && Unify(table, s, context, Var(0), Bool)
         == Failed(s, TypeError(ConstraintViolation(Bool, {"Ord"}), context))
      && var r := Unify(table, s, context, Var(0), Int);
         r.Unified? && HasInstance(r.store, 0) && Instance(r.store, 0) == Int
  {
    var s := TwoFresh({"Ord"});
    var table := {("Ord", "Int")};
    assert !Admits(table, {"Ord"}, Bool) by {
      assert ("Ord", "Bool") !in table;
    }
    assert Admits(table, {"Ord"}, Int);
    UnboundMeetsConcrete(table, s, context, 0, Bool);
    UnboundMeetsConcrete(table, s, context, 0, Int);
  }

  /** `Int -> v` against `w -> Bool` binds `w` to `Int` and `v` to `Bool`. */
  lemma FunctionTypesBindBothSides(table: InstanceTable, context: Expr)
    ensures var r := Unify(table, TwoFresh({}), context, Fun(Int, Var(0)), Fun(Var(1), Bool));
      && r.Unified?
      && HasInstance(r.store, 1) && Instance(r.store, 1) == Int
      && HasInstance(r.store, 0) && Instance(r.store, 0) == Bool
  {
    var s := TwoFresh({});
    var a := Fun(Int, Var(0));
    var b := Fun(Var(1), Bool);
    assert !SameType(s, a, b);
    ConcreteAgainstVariable(table, s, context, Int, 1);
    assert !Occurs(s, 1, Int);
    assert Admits(table, {}, Int);
    UnboundMeetsConcrete(table, s, context, 1, Int);
    var first := Unify(table, s, context, Int, Var(1));
    var s1 := first.store;
    assert first.Unified? && HasInstance(s1, 1) && Instance(s1, 1) == Int;
    assert Find(s1, 0) == 0 by {
      ExtendsFind(s, s1, 0);
    }
    assert !HasInstance(s1, 0) && ConstraintsOf(s1, 0) == {};
    assert !Occurs(s1, 0, Bool);
    UnboundMeetsConcrete(table, s1, context, 0, Bool);
    PairwiseKeepsFirstBindings(table, s, context, a, b, 1);
  }

  /** When both the arguments and the results clash, the argument clash is reported. */
  lemma ArgumentClashReportedFirst(table: InstanceTable, context: Expr)
    ensures Unify(table, TwoFresh({}), context, Fun(Int, Bool), Fun(Bool, Int))
         == Failed(TwoFresh({}), TypeError(ConMismatch(Int, Bool), context))
  {
    var s := TwoFresh({});
    ConstructorsUnifyByName(table, s, context, "Int", "Bool");
    PairwiseStopsAtFirstFailure(table, s, context, Fun(Int, Bool), Fun(Bool, Int));
  }

  /** After `v` and `w` are unified, binding `w` to `Int` is observed through `v`. */
  lemma MergedVariablesSeeOneBinding(table: InstanceTable, context: Expr)
    ensures var s1 := Unify(table, TwoFresh({}), context, Var(0), Var(1)).store;
      var r := Unify(table, s1, context, Var(1), Int);
      && r.Unified?
      && HasInstance(r.store, 0) && Instance(r.store, 0) == Int
      && HasInstance(r.store, 1) && Instance(r.store, 1) == Int
  {
    var s := TwoFresh({});
    UnboundVariablesShareCell(table, s, context, 0, 1);
    var s1 := Unify(table, s, context, Var(0), Var(1)).store;
    UnboundMeetsConcrete(table, s1, context, 1, Int);
    SharedCellsStayShared(table, s1, context, Var(1), Int, 0, 1);
  }
}

=== FILE: unify_properties.dfy ===
/**
 What `unify` promises, one case of the algorithm at a time, and what
 holds across all of them: bindings are never retracted, handles that
 share a cell keep sharing it, and (without function types) a success
 makes both sides stand for the same type.
 */
module UnifyProperties {
  import opened Types
  import opened Constraints
  import opened Store
  import opened Expressions
  import opened TypeChecker

  lemma {:induction false} SameTypeReflexive(s: Store, t: Type)
    requires WellFormed(s) && InStore(s, t)
    ensures SameType(s, t, t)
  {
    match t
    case Var(_) =>
    case Con(_) =>
    case Fun(a, r) =>
      SameTypeReflexive(s, a);
      SameTypeReflexive(s, r);
    case App(f, a) =>
      SameTypeReflexive(s, f);
      SameTypeReflexive(s, a);
  }

  /** Identical or equal types unify at once, and no cell changes. */
  lemma UnifyEqualTypes(table: InstanceTable, s: Store, context: Expr, a: Type, b: Type)
    requires WellFormed(s) && InStore(s, a) && InStore(s, b)
    requires a == b || SameType(s, a, b)
    ensures Unify(table, s, context, a, b) == Unified(s)
  {
    if a == b {
      SameTypeReflexive(s, a);
    }
  }

  /** The occurs-check runs before the variable's own binding is consulted:
      whether or not `x` is bound, a `b` reaching `x` is a recursive type. */
  lemma OccursCheckFirst(table: InstanceTable, s: Store, context: Expr, x: VarId, b: Type)
    requires WellFormed(s) && x in s && InStore(s, b)
    requires !SameType(s, Var(x), b) && Occurs(s, x, b)
    ensures Unify(table, s, context, Var(x), b) == Failed(s, TypeError(Recursive(Var(x), b), context))
  {
  }

  /** A variable never unifies with a function type over itself. */
  lemma RecursiveFunctionRejected(table: InstanceTable, s: Store, context: Expr, x: VarId, t: Type)
    requires WellFormed(s) && x in s && InStore(s, t)
    ensures Unify(table, s, context, Var(x), Fun(Var(x), t))
         == Failed(s, TypeError(Recursive(Var(x), Fun(Var(x), t)), context))
  {
    assert Occurs(s, x, Var(x));
  }

  /** A bound variable on the left is replaced by its instance. */
  lemma BoundLeftDelegates(table: InstanceTable, s: Store, context: Expr, x: VarId, b: Type)
    requires WellFormed(s) && x in s && InStore(s, b)
    requires HasInstance(s, x) && !SameType(s, Var(x), b) && !Occurs(s, x, b)
    ensures Unify(table, s, context, Var(x), b) == Unify(table, s, context, Instance(s, x), b)
  {
  }

  /** A bound variable on the right, facing an unbound one, is replaced by its instance. */
  lemma BoundRightDelegates(table: InstanceTable, s: Store, context: Expr, x: VarId, y: VarId)
    requires WellFormed(s) && x in s && y in s
    requires !HasInstance(s, x) && HasInstance(s, y)
    requires Find(s, x) != Find(s, y) && !Occurs(s, x, Var(y))
    ensures Unify(table, s, context, Var(x), Var(y)) == Unify(table, s, context, Var(x), Instance(s, y))
  {
  }

  /** Two unbound variables in different cells end up in one cell: the left
      one's, with the left one's constraints; no cell but the right root changes. */
  lemma UnboundVariablesShareCell(table: InstanceTable, s: Store, context: Expr, x: VarId, y: VarId)
    requires WellFormed(s) && x in s && y in s
    requires !HasInstance(s, x) && !HasInstance(s, y) && Find(s, x) != Find(s, y)
    ensures var r := Unify(table, s, context, Var(x), Var(y));
      && r.Unified?
      && Find(r.store, x) == Find(r.store, y) == Find(s, x)
      && !HasInstance(r.store, x) && !HasInstance(r.store, y)
      && ConstraintsOf(r.store, y) == ConstraintsOf(s, x)
      && forall v :: v in s && v != Find(s, y) ==> v in r.store && r.store[v] == s[v]
  {
    assert !Occurs(s, x, Var(y));
  }

  /** Handles that share a cell keep sharing it through any unification, so
      whatever binding one of them receives is observed through the other. */
  lemma SharedCellsStayShared(table: InstanceTable, s: Store, context: Expr, a: Type, b: Type, x: VarId, y: VarId)
    requires WellFormed(s) && InStore(s, a) && InStore(s, b)
    requires x in s && y in s && Find(s, x) == Find(s, y)
    ensures var s' := Unify(table, s, context, a, b).store;
      && Find(s', x) == Find(s', y)
      && HasInstance(s', x) == HasInstance(s', y)
      && (HasInstance(s', x) ==> Instance(s', x) == Instance(s', y))
  {
    var s' := Unify(table, s, context, a, b).store;
    ExtendsFind(s, s', x);
    ExtendsFind(s, s', y);
  }

  /** A binding, once made, is never retracted nor changed. */
  lemma BindingsNeverRetracted(table: InstanceTable, s: Store, context: Expr, a: Type, b: Type, v: VarId)
    requires WellFormed(s) && InStore(s, a) && InStore(s, b)
    requires v in s && HasInstance(s, v)
    ensures var s' := Unify(table, s, context, a, b).store;
      HasInstance(s', v) && Instance(s', v) == Instance(s, v)
  {
    var s' := Unify(table, s, context, a, b).store;
    ExtendsFind(s, s', v);
  }

  /** An unbound variable meeting a concrete type is bound to exactly that type
      when its constraints admit it, touching no other cell, and otherwise stays unbound. */
  lemma UnboundMeetsConcrete(table: InstanceTable, s: Store, context: Expr, x: VarId, b: Type)
    requires WellFormed(s) && x in s && InStore(s, b)
    requires !HasInstance(s, x) && IsConcreteType(b) && !Occurs(s, x, b)
    ensures var r := Unify(table, s, context, Var(x), b);
      if Admits(table, ConstraintsOf(s, x), b) then
        && r.Unified? && HasInstance(r.store, x) && Instance(r.store, x) == b
        && forall v :: v in s && v != Find(s, x) ==> v in r.store && r.store[v] == s[v]
      else
        && r == Failed(s, TypeError(ConstraintViolation(b, ConstraintsOf(s, x)), context))
        && !HasInstance(r.store, x)
  {
  }

  /** An unbound variable meeting a function type succeeds without binding
      anything: a function type is not a concrete type and no branch applies. */
  lemma UnboundMeetsFunction(table: InstanceTable, s: Store, context: Expr, x: VarId, b: Type)
    requires WellFormed(s) && x in s && InStore(s, b)
    requires !HasInstance(s, x) && b.Fun? && !Occurs(s, x, b)
    ensures Unify(table, s, context, Var(x), b) == Unified(s)
    ensures !HasInstance(Unify(table, s, context, Var(x), b).store, x)
  {
  }

  /** Two type constructors unify exactly when their names are equal, and never change a cell. */
  lemma ConstructorsUnifyByName(table: InstanceTable, s: Store, context: Expr, m: string, n: string)
    requires WellFormed(s)
    ensures var r := Unify(table, s, context, Con(m), Con(n));
      && r.store == s
      && (r.Unified? <==> m == n)
      && (r.Failed? ==> r.error.kind == ConMismatch(Con(m), Con(n)))
  {
  }

  /** A concrete type against a variable is the swapped call. */
  lemma ConcreteAgainstVariable(table: InstanceTable, s: Store, context: Expr, a: Type, y: VarId)
    requires WellFormed(s) && InStore(s, a) && y in s && IsConcreteType(a)
    ensures Unify(table, s, context, a, Var(y)) == Unify(table, s, context, Var(y), a)
  {
  }

  /** A function type against a variable is not swapped: it is a shape mismatch. */
  lemma FunctionAgainstVariable(table: InstanceTable, s: Store, context: Expr, a: Type, y: VarId)
    requires WellFormed(s) && InStore(s, a) && y in s && a.Fun?
    ensures Unify(table, s, context, a, Var(y)) == Failed(s, TypeError(ShapeMismatch(a, Var(y)), context))
  {
  }

  /** Two non-variable types of different shapes never unify. */
  lemma DifferentShapesFail(table: InstanceTable, s: Store, context: Expr, a: Type, b: Type)
    requires WellFormed(s) && InStore(s, a) && InStore(s, b)
    requires !a.Var? && !b.Var?
    requires !(a.Con? && b.Con?) && !(a.Fun? && b.Fun?) && !(a.App? && b.App?)
    ensures Unify(table, s, context, a, b) == Failed(s, TypeError(ShapeMismatch(a, b), context))
  {
  }

  /** Function types and type applications unify their first parts first:
      a failure there is the result, whatever the second parts are. */
  lemma PairwiseStopsAtFirstFailure(table: InstanceTable, s: Store, context: Expr, a: Type, b: Type)
    requires WellFormed(s) && InStore(s, a) && InStore(s, b)
    requires (a.Fun? && b.Fun?) || (a.App? && b.App?)
    ensures var first := Unify(table, s, context, Left(a), Left(b));
      first.Failed? ==> Unify(table, s, context, a, b) == first
  {
    if SameType(s, a, b) {
      UnifyEqualTypes(table, s, context, Left(a), Left(b));
    }
  }

  /** After the first parts unify, the second parts are unified in the store the
      first left behind, and its bindings persist even when the second part fails. */
  lemma PairwiseKeepsFirstBindings(table: InstanceTable, s: Store, context: Expr, a: Type, b: Type, v: VarId)
    requires WellFormed(s) && InStore(s, a) && InStore(s, b)
    requires (a.Fun? && b.Fun?) || (a.App? && b.App?)
    requires v in s
    ensures var first := Unify(table, s, context, Left(a), Left(b));
      first.Unified? ==>
        var r := Unify(table, s, context, a, b);
        && r == Unify(table, first.store, context, Right(a), Right(b))
        && (HasInstance(first.store, v) ==> HasInstance(r.store, v) && Instance(r.store, v) == Instance(first.store, v))
  {
    var first := Unify(table, s, context, Left(a), Left(b));
    if SameType(s, a, b) {
      UnifyEqualTypes(table, s, context, Left(a), Left(b));
      UnifyEqualTypes(table, s, context, Right(a), Right(b));
    }
    if first.Unified? && HasInstance(first.store, v) {
      BindingsNeverRetracted(table, first.store, context, Right(a), Right(b), v);
    }
  }

  /** Resolving in an extended store sees through what the older store resolved. */
  lemma {:induction false} ResolveExtends(s: Store, s': Store, t: Type)
    requires WellFormed(s) && WellFormed(s') && Extends(s, s') && InStore(s, t)
    ensures InStore(s', t) && InStore(s', Resolve(s, t))
    ensures Resolve(s', t) == Resolve(s', Resolve(s, t))
    decreases Height(RankOf(s), t), t
  {
    match t
    case Var(y) =>
      var r := Find(s, y);
      ExtendsFind(s, s', y);
      if HasInstance(s, y) {
        assert s'[r] == s[r];
        ResolveExtends(s, s', Instance(s, y));
      }
    case Con(_) =>
    case Fun(a, r) =>
      ResolveExtends(s, s', a);
      ResolveExtends(s, s', r);
    case App(f, a) =>
      ResolveExtends(s, s', f);
      ResolveExtends(s, s', a);
  }

  /** Equal types stand for the same type. */
  lemma {:induction false} SameTypeResolve(s: Store, a: Type, b: Type)
    requires WellFormed(s) && InStore(s, a) && InStore(s, b) && SameType(s, a, b)
    ensures Resolve(s, a) == Resolve(s, b)
  {
    match (a, b)
    case (Var(_), Var(_)) =>
    case (Con(_), Con(_)) =>
    case (Fun(a1, r1), Fun(a2, r2)) =>
      SameTypeResolve(s, a1, a2);
      SameTypeResolve(s, r1, r2);
    case (App(f1, x1), App(f2, x2)) =>
      SameTypeResolve(s, f1, f2);
      SameTypeResolve(s, x1, x2);
  }

  /** Without function types anywhere, a successful unification makes both
      sides stand for the same type in the store it leaves behind. */
  lemma {:induction false} UnifySound(table: InstanceTable, s: Store, context: Expr, a: Type, b: Type)
    requires WellFormed(s) && InStore(s, a) && InStore(s, b)
    requires InstancesFunFree(s) && FunFree(a) && FunFree(b)
    requires Unify(table, s, context, a, b).Unified?
    ensures var s' := Unify(table, s, context, a, b).store;
      Resolve(s', a) == Resolve(s', b)
    decreases |UnboundIds(s)|, Weight(s, a) + Weight(s, b), if a.Var? then 0 else 1, 1
  {
    if SameType(s, a, b) {
      SameTypeResolve(s, a, b);
    } else if a.Var? {
      VariableSound(table, s, context, a, b);
    } else if b.Var? && IsConcreteType(a) {
      UnifySound(table, s, context, b, a);
    } else if a.App? && b.App? {
      ApplicationSound(table, s, context, a, b);
    }
  }

  /** The variable cases of `UnifySound`. */
  lemma {:induction false} VariableSound(table: InstanceTable, s: Store, context: Expr, a: Type, b: Type)
    requires WellFormed(s) && InStore(s, a) && InStore(s, b)
    requires InstancesFunFree(s) && FunFree(a) && FunFree(b)
    requires a.Var? && !SameType(s, a, b)
    requires Unify(table, s, context, a, b).Unified?
    ensures var s' := Unify(table, s, context, a, b).store;
      Resolve(s', a) == Resolve(s', b)
    decreases |UnboundIds(s)|, Weight(s, a) + Weight(s, b), 0, 0
  {
    var s' := Unify(table, s, context, a, b).store;
    var x := a.id;
    if HasInstance(s, x) {
      InstanceLighter(s, x);
      UnifySound(table, s, context, Instance(s, x), b);
      ResolveExtends(s, s', a);
      ResolveExtends(s, s', Instance(s, x));
    } else if b.Var? && HasInstance(s, b.id) {
      InstanceLighter(s, b.id);
      UnifySound(table, s, context, a, Instance(s, b.id));
      ResolveExtends(s, s', b);
      ResolveExtends(s, s', Instance(s, b.id));
    }
  }

  /** The type-application case of `UnifySound`. */
  lemma {:induction false} ApplicationSound(table: InstanceTable, s: Store, context: Expr, a: Type, b: Type)
    requires WellFormed(s) && InStore(s, a) && InStore(s, b)
    requires InstancesFunFree(s) && FunFree(a) && FunFree(b)
    requires a.App? && b.App? && !SameType(s, a, b)
    requires Unify(table, s, context, a, b).Unified?
    ensures var s' := Unify(table, s, context, a, b).store;
      Resolve(s', a) == Resolve(s', b)
    decreases |UnboundIds(s)|, Weight(s, a) + Weight(s, b), 1, 0
  {
    var s' := Unify(table, s, context, a, b).store;
    var first := Unify(table, s, context, a.tfun, b.tfun);
    ExtendsShrinks(s, first.store);
    UnifySound(table, s, context, a.tfun, b.tfun);
    UnifySound(table, first.store, context, a.targ, b.targ);
    ResolveExtends(first.store, s', a.tfun);
    ResolveExtends(first.store, s', b.tfun);
  }
}
